=== FILE: README.md ===
# CPPrinter: a Dafny model of the C++ header printer

`CPPrinter` is phase 3 of a Java-to-C++ translator. It builds the text of a
C++ header out of separate string buffers: `CPP_HEAD` (preamble and
namespaces), `CPP_INIT` (class initialisation), `CPP_CLASSES` (forward
declarations) and `CPP_VTS` (struct bodies). It also keeps two indent
strings, `indent_` and `lastIndent_`, and a `shouldIndent` flag. A handful of
helpers write into the buffers through one section writer. A fixed driver
(`cppGenerator`) calls them in order, and `printConsole` concatenates the
buffers into `CPP_CODE`.

The model turns the object's fields into the immutable record
`SectionBuffers.PrinterState`. Each method becomes a pure function from one
state to the next. The contracts say exactly which buffer grows, by which
text, and what happens to the indent.

Modules:

- `SectionBuffers` (`section_buffers.dfy`): the state, the section numbers,
  the writer, `indent`/`undoIndent`, and the render and print functions.
- `Emitters` (`emitters.dfy`): `cppInit`, `freshLine`, `resolve_namespace`,
  `initClassDeclaration`, `resolve_ClassDeclaration` and `cppGenerator`.
- `BufferProperties` (`buffer_properties.dfy`): laws that relate several
  calls. These cover the writer's flag, indent and undo, an invariant on the
  indent strings, and append-only growth over any sequence of calls.
- `GeneratorProperties` (`generator_properties.dfy`): nesting over a
  namespace path, repeated forward declarations, the hard-coded vtable line,
  and the exact buffers after the driver runs on a new printer.

The model keeps these quirks of the code:

- The `if (indent)` in the writer has no braces. Only the `indent()` call
  depends on the flag, and the indent prefix is always applied.
- The indent prefix is added once per call, not once per line. When a call
  asks for two or more newlines, the extra blank lines carry no indent.
- Section 1 writes to `CPP_HEAD`, 2 to `CPP_CLASSES` and 3 to `CPP_VTS`.
  Any other number writes nothing, and nothing ever writes `CPP_INIT`.
- `resolve_ClassDeclaration` writes into the vtable buffer.
- `resolve_ClassDeclaration` always writes `static __A_VT __vtable;`,
  whatever the class name.
- `undoIndent` restores only the one saved level.

The printer never closes the namespaces it opens and emits no vtable slots.
Each indent level is a plain string of four spaces, shared by all sections.

## Model

| member | source | states |
|---|---|---|
| SectionBuffers.Writer | src/com/company/CPPrinter.java:115-134 | For sections 1, 2 and 3, exactly the selected buffer grows by the indent, then the text, then `newLines` newlines. The indent is the one left after the optional `indent()`. It is applied whether or not the flag is set. Any other section number leaves every buffer unchanged, and `CPP_INIT` never changes. When the flag is set, the indent grows by one level and the old one is saved. |
| SectionBuffers.AppendNewlines | src/com/company/CPPrinter.java:117-119 | The newline loop keeps the text as a prefix and adds exactly `max(n, 0)` characters, all of them newlines. It agrees with the reference definition `Newlines`. |
| SectionBuffers.SectionOf | src/com/company/CPPrinter.java:127-132 | Section number 1 selects HEAD, 2 selects CLASSES and 3 selects VTS, each if and only if. Every other number selects no buffer. |
| SectionBuffers.Indent | src/com/company/CPPrinter.java:159-162 | `indent()` saves the old indent as the last indent. The new indent is the old one followed by four spaces. The buffers are unchanged. |
| SectionBuffers.UndoIndent | src/com/company/CPPrinter.java:165-167 | `undoIndent()` makes the saved level the current indent and keeps the saved level as it was. The buffers and `shouldIndent` are unchanged. |
| SectionBuffers.Render | src/com/company/CPPrinter.java:139 | The rendering holds HEAD, INIT, CLASSES and VTS in that order, each at its own consecutive slice, and nothing else. |
| SectionBuffers.PrintConsole | src/com/company/CPPrinter.java:137-141 | The rendering is appended to the accumulated code, which is not reset first. The buffers and the indent are unchanged. |
| BufferProperties.WriterFlagIndentsFirst | src/com/company/CPPrinter.java:121-123 | Writing with the flag set is the same as calling `indent()` first and then writing with the flag clear. So the flag only decides whether the indent grows, not whether the prefix is applied. |
| BufferProperties.WriterOutsideSections | src/com/company/CPPrinter.java:125-133 | A section number other than 1, 2 or 3 writes nothing. The only possible effect is the indent step that the flag requests. |
| BufferProperties.WriterSelectsOneSection | src/com/company/CPPrinter.java:125-133 | Section 1 selects HEAD, 2 selects CLASSES and 3 selects VTS. The selected buffer grows by the fragment, every other section buffer is unchanged, and INIT is unchanged. |
| BufferProperties.LineShape | src/com/company/CPPrinter.java:117-123 | A written fragment starts with the indent, continues with the text and ends with exactly `n` newlines. The prefix is added once per call, so the extra blank lines when `n >= 2` carry no indent. |
| BufferProperties.UndoAfterIndent | src/com/company/CPPrinter.java:159-167 | `undoIndent()` right after `indent()` restores the old indent. |
| BufferProperties.UndoIdempotent | src/com/company/CPPrinter.java:165-167 | Two undos give the same state as one. |
| BufferProperties.IndentsAddLevels | src/com/company/CPPrinter.java:159-162 | `k` indents add `k` levels of four spaces and leave every buffer unchanged. The saved level is the level just below the final one. |
| BufferProperties.UndosCollapse | src/com/company/CPPrinter.java:165-167 | Any positive number of undos is the same as one undo. |
| BufferProperties.UndoGoesBackOneLevel | src/com/company/CPPrinter.java:159-167 | After `k >= 1` indents, any positive number of undos goes back exactly one level (to `k - 1` levels) and never further. |
| BufferProperties.UndoNeverDeeper | src/com/company/CPPrinter.java:159-167 | In every state a new printer reaches through any sequence of calls, an undo restores a prefix of the current indent, so it never makes the indent deeper. |
| BufferProperties.ApplyPreserves | src/com/company/CPPrinter.java:115-227 | Each single call on the printer keeps the indent invariant. The invariant is: both indents are whole levels of spaces and the saved one is a prefix of the current one. Each call also only appends to buffers and leaves `CPP_INIT` alone. |
| BufferProperties.RunPreserves | src/com/company/CPPrinter.java:63-85 | Over any sequence of calls, the indent invariant holds throughout. Every buffer and the accumulated code only grow, and `CPP_INIT` never changes. |
| BufferProperties.InitNeverWritten | src/com/company/CPPrinter.java:65-66 | Starting from a new printer, `CPP_INIT` is still empty after any sequence of calls. |
| BufferProperties.PrintConsoleAccumulates | src/com/company/CPPrinter.java:137-141 | Two prints leave the rendering twice in the accumulated code, because it is never reset. Printing does not change the rendering. |
| Emitters.CppInit | src/com/company/CPPrinter.java:152-156 | Only HEAD grows. It gets `#pragma once`, the `java_lang.h` include and `using namespace java::lang;`, in that order. Each line carries the current indent and is followed by two newlines. The indent is unchanged. |
| Emitters.FreshLine | src/com/company/CPPrinter.java:169-171 | The selected section gets an empty line that still carries the current indent. An unknown section number changes nothing. The indent, the saved level and `shouldIndent` are unchanged. |
| Emitters.ResolveNamespace | src/com/company/CPPrinter.java:174-176 | The indent grows by one level and the old level is saved. HEAD alone gets `namespace <id> { ` and a newline, at the new indent. |
| Emitters.InitClassDeclaration | src/com/company/CPPrinter.java:185-191 | CLASSES alone gets an empty line at the current indent. Then it gets `struct __c;`, `struct __c_VT;` and `typedef __c* c;`, one level deeper only if `shouldIndent` was set. Afterwards `shouldIndent` is false. |
| Emitters.ResolveClassDeclaration | src/com/company/CPPrinter.java:200-213 | VTS alone gets the struct body: an empty line at the current indent, then the opening line at that indent, the members and the `Methods go here` placeholder one level deeper, and the closing `};` back at the current indent. The vtable member is always `static __A_VT __vtable;`. The indent ends where it started, and the saved level ends equal to it. |
| Emitters.CppGenerator | src/com/company/CPPrinter.java:220-227 | From any state, HEAD gets the preamble at the current indent and the `inputs` and `javalang` namespace lines one and two levels deeper. CLASSES gets an empty line at that depth and the three declarations of `A`, one level further in only if `shouldIndent` was set. VTS gets the struct body of `A` at the depth the declarations reached, with its members one level deeper. INIT and the accumulated code are unchanged, every buffer only grows, the indent and the saved level end at that depth, and `shouldIndent` ends false. |
| GeneratorProperties.NamespacesNest | src/com/company/CPPrinter.java:174-176 | Opening the segments of a path one after another adds one namespace line per segment to HEAD, each one level deeper than the one before. The indent ends `|path|` levels deeper. |
| BufferProperties.FlagOnlyClears | src/com/company/CPPrinter.java:190 | Over any sequence of calls, `shouldIndent` is never set again once it is false. Only a forward declaration clears it. |
| GeneratorProperties.LaterDeclarationsDoNotIndent | src/com/company/CPPrinter.java:185-191 | After one forward declaration, whatever calls come in between, any later declaration writes its empty line and all three declarations at the indent it finds. It leaves the indent and the saved level as they were. |
| GeneratorProperties.OnlyFirstDeclarationIndents | src/com/company/CPPrinter.java:185-191 | However many classes get forward declarations in a row, the indent grows at most once, and only if `shouldIndent` was set. HEAD, VTS and INIT are unchanged. |
| GeneratorProperties.DriverVTableLine | src/com/company/CPPrinter.java:200-227 | From any state, the driver's VTS contains `static __A_VT __vtable;`. |
| GeneratorProperties.VTableLineIsFixed | src/com/company/CPPrinter.java:209 | The text appended by a struct body contains `static __A_VT __vtable;` whatever the class name. |
| GeneratorProperties.GeneratorOutput | src/com/company/CPPrinter.java:220-227 | On a new printer the driver leaves HEAD, CLASSES and VTS equal to fixed literal strings, with every space and newline spelled out, and INIT empty. The rendering is HEAD, CLASSES, VTS in that order. VTS contains `static __A_VT __vtable;`, and the final indent is three levels. |

## Left out

- `readFile` (lines 94-112) and the `AST` field: file I/O with exception handling. Nothing in the model reads them.
- The console output in `printConsole` (line 140). Only the concatenation into `CPP_CODE` is modelled.
- The constructor (lines 88-91) does nothing. `SectionBuffers.Fresh` models the field initialisers instead.
- Vtable slots, override binding, method and field emission, closing of namespaces, and de-duplication of namespaces. The code has none of these. Line 206 writes only the placeholder `Methods go here`.
- A null `Boolean` argument, which would make the writer throw, is not modelled. The flag is a plain `bool`.

=== FILE: buffer_properties.dfy ===
/**
 Properties of the printer's state machine that relate several calls: what
 the writer's flag means, how indent and undo interact, the shape the indent
 strings keep, and that text is only ever appended, over any sequence of
 calls on one printer.
 */
module BufferProperties {
  import opened SectionBuffers
  import opened Emitters

  // ---------------------------------------------------------------- writer

  /** The flag only decides whether the printer indents first; the indent
      prefix is put in front of the text either way. */
  lemma WriterFlagIndentsFirst(p: PrinterState, text: string, newLines: int, section: int)
    ensures Writer(p, text, newLines, true, section) == Writer(Indent(p), text, newLines, false, section)
  {
  }

  /** A write with a section number other than 1, 2 or 3 changes no buffer;
      the indent still moves when the flag is set. */
  lemma WriterOutsideSections(p: PrinterState, text: string, newLines: int, flag: bool, section: int)
    requires section != 1 && section != 2 && section != 3
    ensures Writer(p, text, newLines, flag, section) == if flag then Indent(p) else p
  {
  }

  /** Seen through the section view: the selected buffer grows by the
      indented, newline-terminated text and every other buffer is unchanged. */
  lemma WriterSelectsOneSection(p: PrinterState, text: string, newLines: int, flag: bool, section: int)
    requires section == 1 || section == 2 || section == 3
    ensures var q := Writer(p, text, newLines, flag, section);
            var chosen := SectionOf(section).value;
            && Buffer(q, chosen) == Buffer(p, chosen) + Line(if flag then p.indent + Step else p.indent, text, newLines)
            && (forall s :: s != chosen ==> Buffer(q, s) == Buffer(p, s))
            && q.init == p.init
  {
  }

  /** The newlines follow the text and the indent precedes it: the fragment
      ends in exactly `n` newlines and begins with the indent. */
  lemma LineShape(indent: string, text: string, n: nat)
    ensures var l := Line(indent, text, n);
            && l[..|indent|] == indent
            && l[|indent|..|indent| + |text|] == text
            && |l| == |indent| + |text| + n
            && forall i | |indent| + |text| <= i < |l| :: l[i] == '\n'
  {
  }

  // ---------------------------------------------------------------- indent

  /** An undo right after an indent restores the indent the printer had. */
  lemma UndoAfterIndent(p: PrinterState)
    ensures UndoIndent(Indent(p)).indent == p.indent
  {
  }

  /** Undo is idempotent: the saved level is not itself a stack. */
  lemma UndoIdempotent(p: PrinterState)
    ensures UndoIndent(UndoIndent(p)) == UndoIndent(p)
  {
  }

  predicate IsSpaces(s: string)
  {
    forall i | 0 <= i < |s| :: s[i] == ' '
  }

  /** `k` levels of four spaces. */
  function Levels(k: nat): (r: string)
    ensures |r| == 4 * k
    ensures IsSpaces(r)
  {
    if k == 0 then "" else Step + Levels(k - 1)
  }

  function Indents(p: PrinterState, k: nat): PrinterState
    decreases k
  {
    if k == 0 then p else Indents(Indent(p), k - 1)
  }

  function Undos(p: PrinterState, k: nat): PrinterState
    decreases k
  {
    if k == 0 then p else Undos(UndoIndent(p), k - 1)
  }

  /** `k` indents add `k` levels, leave the buffers alone, and save the level
      just below the final one. */
  lemma {:induction false} IndentsAddLevels(p: PrinterState, k: nat)
    ensures Indents(p, k).indent == p.indent + Levels(k)
    ensures SameBuffers(p, Indents(p, k))
    ensures k >= 1 ==> Indents(p, k).lastIndent == p.indent + Levels(k - 1)
    decreases k
  {
    if k > 0 {
      IndentsAddLevels(Indent(p), k - 1);
      assert p.indent + Step + Levels(k - 1) == p.indent + (Step + Levels(k - 1));
    }
  }

  /** Any positive number of undos is one undo. */
  lemma {:induction false} UndosCollapse(p: PrinterState, m: nat)
    requires m >= 1
    ensures Undos(p, m) == UndoIndent(p)
    decreases m
  {
    if m > 1 {
      UndosCollapse(UndoIndent(p), m - 1);
    }
  }

  /** After `k >= 1` indents, any number of undos goes back exactly one level,
      never further. */
  lemma UndoGoesBackOneLevel(p: PrinterState, k: nat, m: nat)
    requires k >= 1 && m >= 1
    ensures Undos(Indents(p, k), m).indent == p.indent + Levels(k - 1)
    ensures |Undos(Indents(p, k), m).indent| == |p.indent| + 4 * (k - 1)
  {
    UndosCollapse(Indents(p, k), m);
    IndentsAddLevels(p, k);
  }

  // ------------------------------------------------------- indent invariant

  /** The indent strings are whole levels of spaces, and the saved level is a
      prefix of the current one, so an undo never indents deeper. */
  predicate WellFormed(p: PrinterState)
  {
    && IsSpaces(p.indent) && |p.indent| % 4 == 0
    && IsSpaces(p.lastIndent) && |p.lastIndent| % 4 == 0
    && p.lastIndent <= p.indent
  }

  lemma FreshWellFormed()
    ensures WellFormed(Fresh)
  {
  }

  /** A level more of spaces is still whole levels of spaces. */
  lemma DeeperWellFormed(s: string)
    requires IsSpaces(s) && |s| % 4 == 0
    ensures IsSpaces(s + Step) && |s + Step| % 4 == 0
    ensures s <= s + Step
  {
  }

  // ------------------------------------------------------ sequences of calls

  /** One call on the printer object. */
  datatype Op =
    | Write(text: string, newLines: int, flag: bool, section: int)
    | IndentCall
    | UndoCall
    | FreshLineCall(section: int)
    | InitCall
    | NamespaceCall(identifier: string)
    | ForwardDeclCall(className: string)
    | StructBodyCall(className: string)
    | GenerateCall
    | PrintCall

  function Apply(p: PrinterState, op: Op): PrinterState
  {
    match op
    case Write(t, n, f, s) => Writer(p, t, n, f, s)
    case IndentCall => Indent(p)
    case UndoCall => UndoIndent(p)
    case FreshLineCall(s) => FreshLine(p, s)
    case InitCall => CppInit(p)
    case NamespaceCall(id) => ResolveNamespace(p, id)
    case ForwardDeclCall(c) => InitClassDeclaration(p, c)
    case StructBodyCall(c) => ResolveClassDeclaration(p, c)
    case GenerateCall => CppGenerator(p)
    case PrintCall => PrintConsole(p)
  }

  function Run(p: PrinterState, ops: seq<Op>): PrinterState
    decreases |ops|
  {
    if |ops| == 0 then p else Run(Apply(p, ops[0]), ops[1..])
  }

  /** `q` is a legal successor of `p`: the indent invariant carries over, text
      is only appended, and the init buffer is unchanged. */
  predicate Legal(p: PrinterState, q: PrinterState)
  {
    (WellFormed(p) ==> WellFormed(q)) && Extends(p, q) && q.init == p.init
  }

  lemma WriteStep(p: PrinterState, t: string, n: int, f: bool, s: int)
    ensures Legal(p, Writer(p, t, n, f, s))
  {
    var q := Writer(p, t, n, f, s);
    if WellFormed(p) {
      DeeperWellFormed(p.indent);
    }
    if SectionOf(s).Some? {
      AppendedExtends(p, q, SectionOf(s).value, Line(if f then p.indent + Step else p.indent, t, n));
    }
  }

  lemma InitStep(p: PrinterState)
    ensures Legal(p, CppInit(p))
  {
    AppendedExtends(p, CppInit(p), Head,
                    Line(p.indent, Pragma, 2) + Line(p.indent, IncludeRuntime, 2)
                    + Line(p.indent, UsingRuntime, 2));
  }

  lemma NamespaceStep(p: PrinterState, id: string)
    ensures Legal(p, ResolveNamespace(p, id))
  {
    if WellFormed(p) {
      DeeperWellFormed(p.indent);
    }
    AppendedExtends(p, ResolveNamespace(p, id), Head, Line(p.indent + Step, "namespace " + id + " { ", 1));
  }

  lemma ForwardDeclStep(p: PrinterState, c: string)
    ensures Legal(p, InitClassDeclaration(p, c))
  {
    if WellFormed(p) {
      DeeperWellFormed(p.indent);
    }
    var d := if p.shouldIndent then p.indent + Step else p.indent;
    AppendedExtends(p, InitClassDeclaration(p, c), Classes,
                    Line(p.indent, "", 1)
                    + Line(d, "struct __" + c + ";", 1)
                    + Line(d, "struct __" + c + "_VT;", 1)
                    + Line(d, "typedef __" + c + "* " + c + ";", 1));
  }

  lemma StructBodyStep(p: PrinterState, c: string)
    ensures Legal(p, ResolveClassDeclaration(p, c))
  {
    var m := p.indent + Step;
    AppendedExtends(p, ResolveClassDeclaration(p, c), VTables,
                    Line(p.indent, "", 1)
                    + Line(p.indent, "struct __" + c + " {", 2)
                    + Line(m, "__" + c + "_VT* __vptr;", 2)
                    + Line(m, "__" + c + "();", 2)
                    + Line(m, "Methods go here", 2)
                    + Line(m, "static Class __class();", 2)
                    + Line(m, "static __A_VT __vtable;", 2)
                    + Line(p.indent, "};", 2));
  }

  lemma GenerateStep(p: PrinterState)
    ensures Legal(p, CppGenerator(p))
  {
    if WellFormed(p) {
      DeeperWellFormed(p.indent);
      DeeperWellFormed(p.indent + Step);
      DeeperWellFormed(p.indent + Step + Step);
    }
  }

  /** Every single call keeps the indent invariant, only appends, and leaves
      the init buffer alone. */
  lemma ApplyPreserves(p: PrinterState, op: Op)
    requires WellFormed(p)
    ensures WellFormed(Apply(p, op))
    ensures Extends(p, Apply(p, op))
    ensures Apply(p, op).init == p.init
  {
    match op
    case Write(t, n, f, s) => WriteStep(p, t, n, f, s);
    case IndentCall => DeeperWellFormed(p.indent);
    case UndoCall =>
    case FreshLineCall(s) => WriteStep(p, "", 1, false, s);
    case InitCall => InitStep(p);
    case NamespaceCall(id) => NamespaceStep(p, id);
    case ForwardDeclCall(c) => ForwardDeclStep(p, c);
    case StructBodyCall(c) => StructBodyStep(p, c);
    case GenerateCall => GenerateStep(p);
    case PrintCall =>
  }

  /** Over any sequence of calls on one printer: the indent invariant holds
      throughout, every buffer only grows, and the init buffer never changes. */
  lemma {:induction false} RunPreserves(p: PrinterState, ops: seq<Op>)
    requires WellFormed(p)
    ensures WellFormed(Run(p, ops))
    ensures Extends(p, Run(p, ops))
    ensures Run(p, ops).init == p.init
    decreases |ops|
  {
    if |ops| > 0 {
      ApplyPreserves(p, ops[0]);
      RunPreserves(Apply(p, ops[0]), ops[1..]);
      ExtendsTransitive(p, Apply(p, ops[0]), Run(p, ops));
    }
  }

  /** A newly constructed printer never gets anything into its init buffer. */
  lemma InitNeverWritten(ops: seq<Op>)
    ensures Run(Fresh, ops).init == ""
    ensures WellFormed(Run(Fresh, ops))
  {
    FreshWellFormed();
    RunPreserves(Fresh, ops);
  }

  /** In every state a new printer can reach, an undo never makes the indent
      deeper: the restored level is a prefix of the current one. */
  lemma UndoNeverDeeper(ops: seq<Op>)
    ensures |UndoIndent(Run(Fresh, ops)).indent| <= |Run(Fresh, ops).indent|
    ensures UndoIndent(Run(Fresh, ops)).indent <= Run(Fresh, ops).indent
  {
    InitNeverWritten(ops);
  }

  /** No call ever sets `shouldIndent`: once cleared, it stays cleared. */
  lemma {:induction false} FlagOnlyClears(p: PrinterState, ops: seq<Op>)
    ensures Run(p, ops).shouldIndent ==> p.shouldIndent
    decreases |ops|
  {
    if |ops| > 0 {
      FlagOnlyClears(Apply(p, ops[0]), ops[1..]);
    }
  }

  // ----------------------------------------------------------------- print

  /** The accumulated code is never reset: two prints hold the rendering
      twice. */
  lemma PrintConsoleAccumulates(p: PrinterState)
    ensures PrintConsole(PrintConsole(p)).code == p.code + Render(p) + Render(p)
    ensures Render(PrintConsole(p)) == Render(p)
  {
  }
}

=== FILE: emitters.dfy ===
/**
 The emission helpers of the C++ header printer and its fixed driver. Each
 helper is a short sequence of section writes; the contracts state the
 combined effect: which buffer grows, by exactly which lines, and where the
 indent ends up.
 */
module Emitters {
  import opened SectionBuffers

  /** The three fixed preamble lines of the header. */
  const Pragma: string := "#pragma once"
  const IncludeRuntime: string := "#include \"java_lang.h\""
  const UsingRuntime: string := "using namespace java::lang;"

  /** The preamble: each fixed line at the current indent, followed by a blank
      line, into the header buffer only. */
  function CppInit(p: PrinterState): (q: PrinterState)
    ensures Appended(p, q, Head,
                     Line(p.indent, Pragma, 2)
                     + Line(p.indent, IncludeRuntime, 2)
                     + Line(p.indent, UsingRuntime, 2))
    ensures q.indent == p.indent && q.lastIndent == p.lastIndent
    ensures q.shouldIndent == p.shouldIndent
  {
    var p1 := Writer(p, Pragma, 2, false, 1);
    var p2 := Writer(p1, IncludeRuntime, 2, false, 1);
    var p3 := Writer(p2, UsingRuntime, 2, false, 1);
    AppendedChain(p, p1, p2, Head, Line(p.indent, Pragma, 2), Line(p.indent, IncludeRuntime, 2));
    AppendedChain(p, p2, p3, Head,
                  Line(p.indent, Pragma, 2) + Line(p.indent, IncludeRuntime, 2),
                  Line(p.indent, UsingRuntime, 2));
    p3
  }

  /** An empty line, still prefixed by the current indent, in the given
      section; nothing at all for a number that selects no section. */
  function FreshLine(p: PrinterState, section: int): (q: PrinterState)
    ensures SectionOf(section).Some? ==> Appended(p, q, SectionOf(section).value, p.indent + "\n")
    ensures SectionOf(section).None? ==> q == p
    ensures q.indent == p.indent && q.lastIndent == p.lastIndent
    ensures q.shouldIndent == p.shouldIndent
  {
    Writer(p, "", 1, false, section)
  }

  /** Opens one namespace in the header buffer only, one level deeper than
      the current indent, and leaves the printer at that deeper level. */
  function ResolveNamespace(p: PrinterState, identifier: string): (q: PrinterState)
    ensures Appended(p, q, Head, Line(p.indent + Step, "namespace " + identifier + " { ", 1))
    ensures q.indent == p.indent + Step && q.lastIndent == p.indent
    ensures q.shouldIndent == p.shouldIndent
  {
    Writer(p, "namespace " + identifier + " { ", 1, true, 1)
  }

  /** The forward declarations of one class, in the class-declaration buffer
      only: an empty line at the current indent, then the three declarations,
      one level deeper only while `shouldIndent` is still set. Afterwards
      `shouldIndent` is cleared, so only the first call indents. */
  function InitClassDeclaration(p: PrinterState, className: string): (q: PrinterState)
    ensures var d := if p.shouldIndent then p.indent + Step else p.indent;
            Appended(p, q, Classes,
                     Line(p.indent, "", 1)
                     + Line(d, "struct __" + className + ";", 1)
                     + Line(d, "struct __" + className + "_VT;", 1)
                     + Line(d, "typedef __" + className + "* " + className + ";", 1))
    ensures q.indent == (if p.shouldIndent then p.indent + Step else p.indent)
    ensures q.lastIndent == (if p.shouldIndent then p.indent else p.lastIndent)
    ensures !q.shouldIndent
  {
    var d := if p.shouldIndent then p.indent + Step else p.indent;
    var t1 := Line(p.indent, "", 1);
    var t2 := Line(d, "struct __" + className + ";", 1);
    var t3 := Line(d, "struct __" + className + "_VT;", 1);
    var t4 := Line(d, "typedef __" + className + "* " + className + ";", 1);
    var p1 := Writer(p, "", 1, false, 2);
    var p2 := Writer(p1, "struct __" + className + ";", 1, p.shouldIndent, 2);
    var p3 := Writer(p2, "struct __" + className + "_VT;", 1, false, 2);
    var p4 := Writer(p3, "typedef __" + className + "* " + className + ";", 1, false, 2);
    AppendedChain(p, p1, p2, Classes, t1, t2);
    AppendedChain(p, p2, p3, Classes, t1 + t2, t3);
    AppendedChain(p, p3, p4, Classes, t1 + t2 + t3, t4);
    p4.(shouldIndent := false)
  }

  /** The struct body of one class, in the vtable buffer only: an empty line
      and the opening line at the current indent, the members one level
      deeper, the closing line back at the current indent. The vtable member
      names `__A_VT` whatever the class is, and one placeholder line stands
      where methods would go. Afterwards the indent is where it started, and
      the saved level is that same indent. */
  function ResolveClassDeclaration(p: PrinterState, className: string): (q: PrinterState)
    ensures var d := p.indent;
            var m := p.indent + Step;
            Appended(p, q, VTables,
                     Line(d, "", 1)
                     + Line(d, "struct __" + className + " {", 2)
                     + Line(m, "__" + className + "_VT* __vptr;", 2)
                     + Line(m, "__" + className + "();", 2)
                     + Line(m, "Methods go here", 2)
                     + Line(m, "static Class __class();", 2)
                     + Line(m, "static __A_VT __vtable;", 2)
                     + Line(d, "};", 2))
    ensures q.indent == p.indent && q.lastIndent == p.indent
    ensures q.shouldIndent == p.shouldIndent
  {
    var d := p.indent;
    var m := p.indent + Step;
    var t1 := Line(d, "", 1);
    var t2 := Line(d, "struct __" + className + " {", 2);
    var t3 := Line(m, "__" + className + "_VT* __vptr;", 2);
    var t4 := Line(m, "__" + className + "();", 2);
    var t5 := Line(m, "Methods go here", 2);
    var t6 := Line(m, "static Class __class();", 2);
    var t7 := Line(m, "static __A_VT __vtable;", 2);
    var t8 := Line(d, "};", 2);
    var p1 := FreshLine(p, 3);
    var p2 := Writer(p1, "struct __" + className + " {", 2, false, 3);
    var p3 := Writer(p2, "__" + className + "_VT* __vptr;", 2, true, 3);
    var p4 := Writer(p3, "__" + className + "();", 2, false, 3);
    var p5 := Writer(p4, "Methods go here", 2, false, 3);
    var p6 := Writer(p5, "static Class __class();", 2, false, 3);
    var p7 := Writer(p6, "static __A_VT __vtable;", 2, false, 3);
    var p8 := UndoIndent(p7);
    var p9 := Writer(p8, "};", 2, false, 3);
    AppendedChain(p, p1, p2, VTables, t1, t2);
    AppendedChain(p, p2, p3, VTables, t1 + t2, t3);
    AppendedChain(p, p3, p4, VTables, t1 + t2 + t3, t4);
    AppendedChain(p, p4, p5, VTables, t1 + t2 + t3 + t4, t5);
    AppendedChain(p, p5, p6, VTables, t1 + t2 + t3 + t4 + t5, t6);
    AppendedChain(p, p6, p7, VTables, t1 + t2 + t3 + t4 + t5 + t6, t7);
    AppendedThenSame(p, p7, p8, VTables, t1 + t2 + t3 + t4 + t5 + t6 + t7);
    AppendedChain(p, p8, p9, VTables, t1 + t2 + t3 + t4 + t5 + t6 + t7, t8);
    p9
  }

  /** The fixed driver: preamble, namespaces `inputs` and `javalang`, then the
      forward declarations and the struct body of class `A`. From any state,
      the header gets the preamble at the current indent and the two
      namespace lines one and two levels deeper; the class declarations open
      with an empty line at that depth and put the declarations of `A` one
      level further in only while `shouldIndent` is set; the struct body
      sits at the depth the declarations reached. */
  function CppGenerator(p: PrinterState): (q: PrinterState)
    ensures var d1 := p.indent + Step;
            var d2 := d1 + Step;
            var e := if p.shouldIndent then d2 + Step else d2;
            var m := e + Step;
            && q.head == p.head
                         + Line(p.indent, Pragma, 2)
                         + Line(p.indent, IncludeRuntime, 2)
                         + Line(p.indent, UsingRuntime, 2)
                         + Line(d1, "namespace inputs { ", 1)
                         + Line(d2, "namespace javalang { ", 1)
            && q.classes == p.classes
                            + Line(d2, "", 1)
                            + Line(e, "struct __A;", 1)
                            + Line(e, "struct __A_VT;", 1)
                            + Line(e, "typedef __A* A;", 1)
            && q.vts == p.vts
                        + Line(e, "", 1)
                        + Line(e, "struct __A {", 2)
                        + Line(m, "__A_VT* __vptr;", 2)
                        + Line(m, "__A();", 2)
                        + Line(m, "Methods go here", 2)
                        + Line(m, "static Class __class();", 2)
                        + Line(m, "static __A_VT __vtable;", 2)
                        + Line(e, "};", 2)
            && q.indent == e && q.lastIndent == e
    ensures Extends(p, q)
    ensures q.init == p.init && q.code == p.code
    ensures !q.shouldIndent
  {
    var p1 := CppInit(p);
    var p2 := ResolveNamespace(p1, "inputs");
    var p3 := ResolveNamespace(p2, "javalang");
    var p4 := InitClassDeclaration(p3, "A");
    var p5 := ResolveClassDeclaration(p4, "A");
    DriverNames();
    assert p5.head == p.head
                      + (Line(p.indent, Pragma, 2) + Line(p.indent, IncludeRuntime, 2)
                         + Line(p.indent, UsingRuntime, 2))
                      + Line(p.indent + Step, "namespace inputs { ", 1)
                      + Line(p.indent + Step + Step, "namespace javalang { ", 1);
    AppendedExtends(p, p1, Head, Line(p.indent, Pragma, 2) + Line(p.indent, IncludeRuntime, 2) + Line(p.indent, UsingRuntime, 2));
    AppendedExtends(p1, p2, Head, Line(p1.indent + Step, "namespace " + "inputs" + " { ", 1));
    AppendedExtends(p2, p3, Head, Line(p2.indent + Step, "namespace " + "javalang" + " { ", 1));
    var d := if p3.shouldIndent then p3.indent + Step else p3.indent;
    AppendedExtends(p3, p4, Classes,
                    Line(p3.indent, "", 1) + Line(d, "struct __" + "A" + ";", 1)
                    + Line(d, "struct __" + "A" + "_VT;", 1)
                    + Line(d, "typedef __" + "A" + "* " + "A" + ";", 1));
    var m := p4.indent + Step;
    AppendedExtends(p4, p5, VTables,
                    Line(p4.indent, "", 1) + Line(p4.indent, "struct __" + "A" + " {", 2)
                    + Line(m, "__" + "A" + "_VT* __vptr;", 2) + Line(m, "__" + "A" + "();", 2)
                    + Line(m, "Methods go here", 2) + Line(m, "static Class __class();", 2)
                    + Line(m, "static __A_VT __vtable;", 2) + Line(p4.indent, "};", 2));
    ExtendsTransitive(p, p1, p2);
    ExtendsTransitive(p, p2, p3);
    ExtendsTransitive(p, p3, p4);
    ExtendsTransitive(p, p4, p5);
    p5
  }

  /** The texts the driver builds from the class name `A` and the namespace
      names, spelled out. */
  lemma DriverNames()
    ensures "namespace " + "inputs" + " { " == "namespace inputs { "
    ensures "namespace " + "javalang" + " { " == "namespace javalang { "
    ensures "struct __" + "A" + ";" == "struct __A;"
    ensures "struct __" + "A" + "_VT;" == "struct __A_VT;"
    ensures "typedef __" + "A" + "* " + "A" + ";" == "typedef __A* A;"
    ensures "struct __" + "A" + " {" == "struct __A {"
    ensures "__" + "A" + "_VT* __vptr;" == "__A_VT* __vptr;"
    ensures "__" + "A" + "();" == "__A();"
  {
  }
}

=== FILE: generator_properties.dfy ===
/**
 Properties of the emission helpers over several calls, and the exact text
 the fixed driver produces from a newly constructed printer.
 */
module GeneratorProperties {
  import opened SectionBuffers
  import opened Emitters
  import opened BufferProperties

  lemma NewlinesOne()
    ensures Newlines(1) == "\n"
  {
  }

  lemma NewlinesTwo()
    ensures Newlines(2) == "\n\n"
  {
    NewlinesOne();
  }

  // ------------------------------------------------------------ namespaces

  /** Opening the segments of a path one after another. */
  function ResolveNamespaces(p: PrinterState, ids: seq<string>): PrinterState
    decreases |ids|
  {
    if |ids| == 0 then p else ResolveNamespaces(ResolveNamespace(p, ids[0]), ids[1..])
  }

  /** The header lines that open the segments of `ids`, the first one level
      below `indent` and each further one a level deeper. */
  function NamespaceLines(indent: string, ids: seq<string>): string
    decreases |ids|
  {
    if |ids| == 0 then ""
    else Line(indent + Step, "namespace " + ids[0] + " { ", 1) + NamespaceLines(indent + Step, ids[1..])
  }

  /** Opening a path nests one level per segment: the header gets one
      namespace line per segment, each a level deeper than the one before,
      and the indent ends `|ids|` levels deeper. */
  lemma {:induction false} NamespacesNest(p: PrinterState, ids: seq<string>)
    ensures var q := ResolveNamespaces(p, ids);
            && Appended(p, q, Head, NamespaceLines(p.indent, ids))
            && q.indent == p.indent + Levels(|ids|)
            && q.shouldIndent == p.shouldIndent
    decreases |ids|
  {
    if |ids| > 0 {
      var p1 := ResolveNamespace(p, ids[0]);
      NamespacesNest(p1, ids[1..]);
      AppendedChain(p, p1, ResolveNamespaces(p, ids), Head,
                    Line(p.indent + Step, "namespace " + ids[0] + " { ", 1),
                    NamespaceLines(p1.indent, ids[1..]));
      assert p.indent + Step + Levels(|ids| - 1) == p.indent + (Step + Levels(|ids| - 1));
    }
  }

  // -------------------------------------------------- forward declarations

  function DeclareEach(p: PrinterState, names: seq<string>): PrinterState
    decreases |names|
  {
    if |names| == 0 then p else DeclareEach(InitClassDeclaration(p, names[0]), names[1..])
  }

  /** However many classes are forward-declared, the indent grows by at most
      one level, and only if `shouldIndent` was still set; after at least one
      declaration it is cleared. Only the class-declaration buffer grows. */
  lemma {:induction false} OnlyFirstDeclarationIndents(p: PrinterState, names: seq<string>)
    ensures var q := DeclareEach(p, names);
            && q.indent == (if |names| > 0 && p.shouldIndent then p.indent + Step else p.indent)
            && q.shouldIndent == (p.shouldIndent && |names| == 0)
            && q.head == p.head && q.vts == p.vts && q.init == p.init
            && p.classes <= q.classes
    decreases |names|
  {
    if |names| > 0 {
      OnlyFirstDeclarationIndents(InitClassDeclaration(p, names[0]), names[1..]);
    }
  }

  /** After one forward declaration, any later one, whatever calls come in
      between, writes all its lines at the indent it finds and leaves the
      indent there. */
  lemma LaterDeclarationsDoNotIndent(p: PrinterState, c: string, ops: seq<Op>, c2: string)
    ensures var r := Run(InitClassDeclaration(p, c), ops);
            && !r.shouldIndent
            && Appended(r, InitClassDeclaration(r, c2), Classes,
                        Line(r.indent, "", 1)
                        + Line(r.indent, "struct __" + c2 + ";", 1)
                        + Line(r.indent, "struct __" + c2 + "_VT;", 1)
                        + Line(r.indent, "typedef __" + c2 + "* " + c2 + ";", 1))
            && InitClassDeclaration(r, c2).indent == r.indent
            && InitClassDeclaration(r, c2).lastIndent == r.lastIndent
  {
    FlagOnlyClears(InitClassDeclaration(p, c), ops);
  }

  // ------------------------------------------------------------ class body

  /** `t` occurs in `s` starting at position `i`. */
  predicate OccursAt(s: string, t: string, i: int)
  {
    0 <= i <= |s| - |t| && s[i..i + |t|] == t
  }

  /** `t` occurs somewhere in `s`. */
  ghost predicate Contains(s: string, t: string)
  {
    exists i :: OccursAt(s, t, i)
  }

  lemma ContainsInfix(a: string, t: string, b: string)
    ensures Contains(a + t + b, t)
  {
    assert (a + t + b)[|a|..|a| + |t|] == t;
    assert OccursAt(a + t + b, t, |a|);
  }

  lemma Regroup(a: string, m: string, x: string, n: string, b: string)
    ensures a + (m + x + n) + b == (a + m) + x + (n + b)
  {
  }

  /** The text a struct body appends names the vtable `__A_VT`, whatever
      the class is. */
  lemma VTableLineIsFixed(p: PrinterState, className: string)
    ensures var q := ResolveClassDeclaration(p, className);
            && p.vts <= q.vts
            && Contains(q.vts[|p.vts|..], "static __A_VT __vtable;")
  {
    var d := p.indent;
    var m := p.indent + Step;
    var before := Line(d, "", 1)
                  + Line(d, "struct __" + className + " {", 2)
                  + Line(m, "__" + className + "_VT* __vptr;", 2)
                  + Line(m, "__" + className + "();", 2)
                  + Line(m, "Methods go here", 2)
                  + Line(m, "static Class __class();", 2);
    var after := Line(d, "};", 2);
    var q := ResolveClassDeclaration(p, className);
    assert q.vts[|p.vts|..] == before + Line(m, "static __A_VT __vtable;", 2) + after;
    Regroup(before, m, "static __A_VT __vtable;", Newlines(2), after);
    ContainsInfix(before + m, "static __A_VT __vtable;", Newlines(2) + after);
  }

  // ---------------------------------------------------------------- driver

  /** Whatever state it starts from, the driver's struct body names the
      vtable `__A_VT`. */
  lemma DriverVTableLine(p: PrinterState)
    ensures Contains(CppGenerator(p).vts, "static __A_VT __vtable;")
  {
    var e := if p.shouldIndent then p.indent + Step + Step + Step else p.indent + Step + Step;
    var m := e + Step;
    var before := p.vts
                  + Line(e, "", 1)
                  + Line(e, "struct __A {", 2)
                  + Line(m, "__A_VT* __vptr;", 2)
                  + Line(m, "__A();", 2)
                  + Line(m, "Methods go here", 2)
                  + Line(m, "static Class __class();", 2);
    var after := Line(e, "};", 2);
    assert CppGenerator(p).vts == before + Line(m, "static __A_VT __vtable;", 2) + after;
    Regroup(before, m, "static __A_VT __vtable;", Newlines(2), after);
    ContainsInfix(before + m, "static __A_VT __vtable;", Newlines(2) + after);
  }

  /** The header the driver writes into a newly constructed printer, line by
      line. */
  const ExpectedHead: string :=
    "#pragma once\n\n"
    + "#include \"java_lang.h\"\n\n"
    + "using namespace java::lang;\n\n"
    + "    namespace inputs { \n"
    + "        namespace javalang { \n"

  const ExpectedClasses: string :=
    "        \n"
    + "            struct __A;\n"
    + "            struct __A_VT;\n"
    + "            typedef __A* A;\n"

  const ExpectedVTables: string :=
    "            \n"
    + "            struct __A {\n\n"
    + "                __A_VT* __vptr;\n\n"
    + "                __A();\n\n"
    + "                Methods go here\n\n"
    + "                static Class __class();\n\n"
    + "                static __A_VT __vtable;\n\n"
    + "            };\n\n"

  lemma IndentsSpelled()
    ensures "" + Step == "    "
    ensures "    " + Step == "        "
    ensures "        " + Step == "            "
    ensures "            " + Step == "                "
  {
  }

  lemma HeadLinesSpelled()
    ensures Line("", Pragma, 2) == "#pragma once\n\n"
    ensures Line("", IncludeRuntime, 2) == "#include \"java_lang.h\"\n\n"
    ensures Line("", UsingRuntime, 2) == "using namespace java::lang;\n\n"
    ensures Line("    ", "namespace inputs { ", 1) == "    namespace inputs { \n"
    ensures Line("        ", "namespace javalang { ", 1) == "        namespace javalang { \n"
  {
    NewlinesOne();
    NewlinesTwo();
  }

  lemma ClassLinesSpelled()
    ensures Line("        ", "", 1) == "        \n"
    ensures Line("            ", "struct __A;", 1) == "            struct __A;\n"
    ensures Line("            ", "struct __A_VT;", 1) == "            struct __A_VT;\n"
    ensures Line("            ", "typedef __A* A;", 1) == "            typedef __A* A;\n"
  {
    NewlinesOne();
  }

  lemma VTableOpeningSpelled()
    ensures Line("            ", "", 1) == "            \n"
    ensures Line("            ", "struct __A {", 2) == "            struct __A {\n\n"
    ensures Line("            ", "};", 2) == "            };\n\n"
  {
    NewlinesOne();
    NewlinesTwo();
  }

  lemma VTableMembersSpelled()
    ensures Line("                ", "__A_VT* __vptr;", 2) == "                __A_VT* __vptr;\n\n"
    ensures Line("                ", "__A();", 2) == "                __A();\n\n"
    ensures Line("                ", "Methods go here", 2) == "                Methods go here\n\n"
  {
    NewlinesTwo();
  }

  lemma VTableStaticsSpelled()
    ensures Line("                ", "static Class __class();", 2) == "                static Class __class();\n\n"
    ensures Line("                ", "static __A_VT __vtable;", 2) == "                static __A_VT __vtable;\n\n"
  {
    NewlinesTwo();
  }

  /** The indents the driver passes through on a newly constructed printer. */
  lemma DriverIndents()
    ensures var d1 := Fresh.indent + Step;
            var d2 := d1 + Step;
            && d1 == "    " && d2 == "        "
            && d2 + Step == "            " && d2 + Step + Step == "                "
  {
    IndentsSpelled();
  }

  /** Equal parts make equal concatenations. */
  lemma JoinFour(a1: string, a2: string, a3: string, a4: string,
                 b1: string, b2: string, b3: string, b4: string)
    requires a1 == b1 && a2 == b2 && a3 == b3 && a4 == b4
    ensures a1 + a2 + a3 + a4 == b1 + b2 + b3 + b4
  {
  }

  /** The header from a new printer, line by line, before spelling. */
  lemma HeadLines()
    ensures CppGenerator(Fresh).head
            == Line("", Pragma, 2)
               + Line("", IncludeRuntime, 2)
               + Line("", UsingRuntime, 2)
               + Line("    ", "namespace inputs { ", 1)
               + Line("        ", "namespace javalang { ", 1)
  {
    DriverIndents();
    assert "" + Line("", Pragma, 2) == Line("", Pragma, 2);
  }

  lemma GeneratedHead()
    ensures CppGenerator(Fresh).head == ExpectedHead
  {
    HeadLines();
    HeadLinesSpelled();
    JoinFour(Line("", Pragma, 2) + Line("", IncludeRuntime, 2),
             Line("", UsingRuntime, 2),
             Line("    ", "namespace inputs { ", 1),
             Line("        ", "namespace javalang { ", 1),
             "#pragma once\n\n" + "#include \"java_lang.h\"\n\n",
             "using namespace java::lang;\n\n",
             "    namespace inputs { \n",
             "        namespace javalang { \n");
  }

  lemma ClassLines()
    ensures CppGenerator(Fresh).classes
            == Line("        ", "", 1)
               + Line("            ", "struct __A;", 1)
               + Line("            ", "struct __A_VT;", 1)
               + Line("            ", "typedef __A* A;", 1)
  {
    DriverIndents();
    assert "" + Line("        ", "", 1) == Line("        ", "", 1);
  }

  lemma GeneratedClasses()
    ensures CppGenerator(Fresh).classes == ExpectedClasses
  {
    ClassLines();
    ClassLinesSpelled();
    JoinFour(Line("        ", "", 1),
             Line("            ", "struct __A;", 1),
             Line("            ", "struct __A_VT;", 1),
             Line("            ", "typedef __A* A;", 1),
             "        \n",
             "            struct __A;\n",
             "            struct __A_VT;\n",
             "            typedef __A* A;\n");
  }

  lemma VTableLines()
    ensures var e := "            ";
            var m := "                ";
            CppGenerator(Fresh).vts
            == Line(e, "", 1)
               + Line(e, "struct __A {", 2)
               + Line(m, "__A_VT* __vptr;", 2)
               + Line(m, "__A();", 2)
               + Line(m, "Methods go here", 2)
               + Line(m, "static Class __class();", 2)
               + Line(m, "static __A_VT __vtable;", 2)
               + Line(e, "};", 2)
  {
    DriverIndents();
    assert "" + Line("            ", "", 1) == Line("            ", "", 1);
  }

  lemma GeneratedVTables()
    ensures CppGenerator(Fresh).vts == ExpectedVTables
  {
    var e := "            ";
    var m := "                ";
    VTableLines();
    VTableOpeningSpelled();
    VTableMembersSpelled();
    VTableStaticsSpelled();
    JoinFour(Line(e, "", 1) + Line(e, "struct __A {", 2),
             Line(m, "__A_VT* __vptr;", 2) + Line(m, "__A();", 2),
             Line(m, "Methods go here", 2) + Line(m, "static Class __class();", 2),
             Line(m, "static __A_VT __vtable;", 2) + Line(e, "};", 2),
             "            \n" + "            struct __A {\n\n",
             "                __A_VT* __vptr;\n\n" + "                __A();\n\n",
             "                Methods go here\n\n" + "                static Class __class();\n\n",
             "                static __A_VT __vtable;\n\n" + "            };\n\n");
  }

  lemma EmptyInitRender(p: PrinterState)
    requires p.init == ""
    ensures Render(p) == p.head + p.classes + p.vts
  {
  }

  /** The driver run on a newly constructed printer: the header holds the
      preamble and two nested namespace openings, the class declarations hold
      the forward declarations of `A` one level inside them, the vtable buffer
      holds the struct body of `A`, the init buffer stays empty, and the
      rendering is the three in that order. */
  lemma GeneratorOutput()
    ensures var q := CppGenerator(Fresh);
            && q.head == ExpectedHead
            && q.init == ""
            && q.classes == ExpectedClasses
            && q.vts == ExpectedVTables
            && Render(q) == ExpectedHead + ExpectedClasses + ExpectedVTables
            && q.indent == "            " && q.lastIndent == "            "
            && !q.shouldIndent
            && Contains(q.vts, "static __A_VT __vtable;")
  {
    var q := CppGenerator(Fresh);
    GeneratedHead();
    GeneratedClasses();
    GeneratedVTables();
    DriverIndents();
    EmptyInitRender(q);
    DriverVTableLine(Fresh);
  }
}

=== FILE: section_buffers.dfy ===
/**
 The printer's state and its low-level transitions: the section buffers of the
 generated C++ text, the indent strings, the section writer, indent/undo, and
 the final concatenation of the buffers.

 The source keeps all of this in mutable fields of one object; here the
 fields form an immutable record and every operation returns the next record.
 */
module SectionBuffers {

  datatype Option<T> = None | Some(value: T)

  /** The three buffers a section number can select. The init buffer has no
      number, so no write ever reaches it. */
  datatype Section = Head | Classes | VTables

  /** Section numbers as the writer reads them: 1 selects the header buffer,
      2 the class-declaration buffer and 3 the vtable buffer; any other number
      selects nothing. */
  function SectionOf(n: int): (r: Option<Section>)
    ensures r == Some(Head) <==> n == 1
    ensures r == Some(Classes) <==> n == 2
    ensures r == Some(VTables) <==> n == 3
    ensures r == None <==> n < 1 || n > 3
  {
    if n == 1 then Some(Head)
    else if n == 2 then Some(Classes)
    else if n == 3 then Some(VTables)
    else None
  }

  /** One indent level: four spaces. */
  const Step: string := "    "

  /** The printer's fields. `code` is the accumulated rendering, `indent` the
      current indent prefix, `lastIndent` the single saved previous level, and
      `shouldIndent` whether the next forward declaration still indents. */
  datatype PrinterState = PrinterState(
    head: string,
    init: string,
    classes: string,
    vts: string,
    code: string,
    indent: string,
    lastIndent: string,
    shouldIndent: bool)

  /** The state of a newly constructed printer. */
  const Fresh: PrinterState := PrinterState("", "", "", "", "", "", "", true)

  function Buffer(p: PrinterState, s: Section): string
  {
    match s
    case Head => p.head
    case Classes => p.classes
    case VTables => p.vts
  }

  /** The four section buffers and the accumulated code agree in `p` and `q`. */
  predicate SameBuffers(p: PrinterState, q: PrinterState)
  {
    p.head == q.head && p.init == q.init && p.classes == q.classes
    && p.vts == q.vts && p.code == q.code
  }

  /** `q` differs from `p`, as far as text goes, only by `t` appended to
      section `s`; the init buffer and the accumulated code are untouched. */
  predicate Appended(p: PrinterState, q: PrinterState, s: Section, t: string)
  {
    && q.head == (if s == Head then p.head + t else p.head)
    && q.classes == (if s == Classes then p.classes + t else p.classes)
    && q.vts == (if s == VTables then p.vts + t else p.vts)
    && q.init == p.init
    && q.code == p.code
  }

  /** Two appends to one section are one append of both texts. */
  lemma AppendedChain(p: PrinterState, q: PrinterState, r: PrinterState, s: Section, t1: string, t2: string)
    requires Appended(p, q, s, t1) && Appended(q, r, s, t2)
    ensures Appended(p, r, s, t1 + t2)
  {
    match s
    case Head => Associative(p.head, t1, t2);
    case Classes => Associative(p.classes, t1, t2);
    case VTables => Associative(p.vts, t1, t2);
  }

  lemma Associative(a: string, b: string, c: string)
    ensures a + b + c == a + (b + c)
  {
  }

  /** An append followed by a step that leaves the buffers alone is the same
      append. */
  lemma AppendedThenSame(p: PrinterState, q: PrinterState, r: PrinterState, s: Section, t: string)
    requires Appended(p, q, s, t) && SameBuffers(q, r)
    ensures Appended(p, r, s, t)
  {
  }

  /** Every buffer of `p` is a prefix of the same buffer of `q`: text is only
      ever appended. */
  predicate Extends(p: PrinterState, q: PrinterState)
  {
    p.head <= q.head && p.init <= q.init && p.classes <= q.classes
    && p.vts <= q.vts && p.code <= q.code
  }

  /** An append extends every buffer. */
  lemma AppendedExtends(p: PrinterState, q: PrinterState, s: Section, t: string)
    requires Appended(p, q, s, t)
    ensures Extends(p, q)
  {
  }

  lemma ExtendsTransitive(p: PrinterState, q: PrinterState, r: PrinterState)
    requires Extends(p, q) && Extends(q, r)
    ensures Extends(p, r)
  {
  }

  /** `n` newline characters; a count of zero or less gives none, as a
      counting loop that starts at zero would. */
  function Newlines(n: int): (r: string)
    ensures |r| == if n <= 0 then 0 else n
    ensures forall i | 0 <= i < |r| :: r[i] == '\n'
  {
    if n <= 0 then "" else Newlines(n - 1) + "\n"
  }

  /** A fragment as the writer lays it out: the indent, the text, then `n`
      newlines. */
  function Line(indent: string, text: string, n: int): string
  {
    indent + text + Newlines(n)
  }

  /** The writer's first step: append one newline per iteration of a loop
      counting from zero up to `n`. */
  method AppendNewlines(text: string, n: int) returns (r: string)
    ensures |r| == |text| + (if n <= 0 then 0 else n)
    ensures r[..|text|] == text
    ensures forall i | |text| <= i < |r| :: r[i] == '\n'
    ensures r == text + Newlines(n)
  {
    r := text;
    var i := 0;
    while i < n
      invariant 0 <= i <= (if n <= 0 then 0 else n)
      invariant |r| == |text| + i
      invariant r[..|text|] == text
      invariant forall j | |text| <= j < |r| :: r[j] == '\n'
      invariant r == text + Newlines(i)
    {
      r := r + "\n";
      i := i + 1;
    }
  }

  /** One indent: the current level is saved and four spaces are added. */
  function Indent(p: PrinterState): (q: PrinterState)
    ensures q.indent == p.indent + Step
    // The next two follow from the first; they are the form the indent
    // invariant's proofs use.
    ensures |q.indent| == |p.indent| + 4
    ensures q.indent[..|p.indent|] == p.indent
    ensures q.lastIndent == p.indent
    ensures SameBuffers(p, q) && q.shouldIndent == p.shouldIndent
  {
    p.(lastIndent := p.indent, indent := p.indent + Step)
  }

  /** Undo an indent: the current level becomes the one saved level. */
  function UndoIndent(p: PrinterState): (q: PrinterState)
    ensures q.indent == p.lastIndent && q.lastIndent == p.lastIndent
    ensures SameBuffers(p, q) && q.shouldIndent == p.shouldIndent
  {
    p.(indent := p.lastIndent)
  }

  function AppendTo(p: PrinterState, s: Section, t: string): (q: PrinterState)
    ensures Appended(p, q, s, t)
    ensures q.indent == p.indent && q.lastIndent == p.lastIndent
    ensures q.shouldIndent == p.shouldIndent
  {
    match s
    case Head => p.(head := p.head + t)
    case Classes => p.(classes := p.classes + t)
    case VTables => p.(vts := p.vts + t)
  }

  /** The section writer. The newlines go onto the text first; then, if `flag`
      is set, the printer indents; then the current indent is put in front
      of the text whatever `flag` was. The indent change happens even when the
      section number selects no buffer. */
  function Writer(p: PrinterState, text: string, newLines: int, flag: bool, section: int): (q: PrinterState)
    ensures SectionOf(section).Some? ==>
              Appended(p, q, SectionOf(section).value,
                       Line(if flag then p.indent + Step else p.indent, text, newLines))
    ensures SectionOf(section).None? ==> SameBuffers(p, q)
    ensures q.indent == (if flag then p.indent + Step else p.indent)
    ensures q.lastIndent == (if flag then p.indent else p.lastIndent)
    ensures q.shouldIndent == p.shouldIndent
  {
    var broken := text + Newlines(newLines);
    var r := if flag then Indent(p) else p;
    var fragment := r.indent + broken;
    match SectionOf(section)
    case Some(s) => AppendTo(r, s, fragment)
    case None => r
  }

  /** The rendering: header, init, class declarations and vtables, in that
      order, each at its own consecutive slice and nothing else. */
  function Render(p: PrinterState): (r: string)
    ensures var a := |p.head|;
            var b := a + |p.init|;
            var c := b + |p.classes|;
            && |r| == c + |p.vts|
            && r[..a] == p.head
            && r[a..b] == p.init
            && r[b..c] == p.classes
            && r[c..] == p.vts
  {
    p.head + p.init + p.classes + p.vts
  }

  /** The console print, without the printing: the rendering is appended to
      the accumulated code, which is never reset. */
  function PrintConsole(p: PrinterState): (q: PrinterState)
    ensures q.code == p.code + Render(p)
    ensures q.head == p.head && q.init == p.init && q.classes == p.classes && q.vts == p.vts
    ensures q.indent == p.indent && q.lastIndent == p.lastIndent && q.shouldIndent == p.shouldIndent
  {
    p.(code := p.code + Render(p))
  }
}
